=== FILE: README.md ===
# MixMatch wardrobe rules in Dafny

MixMatch is a personal wardrobe web application. Users photograph clothing,
a hosted vision model classifies each picture, and a hosted generative model
proposes outfits and renders them. Almost everything is presentation and API
glue. Under it sits a small layer of pure list and state rules, and that layer
is what this project models and proves:

- the outfit-list handlers of `App`: save, favourite toggle, delete, history
  merge capped at 50, schedule and unschedule;
- the reconciliation of the stylist's answer with the wardrobe: the
  two-item guard, id resolution, dropping empty outfits, and merging a
  generated picture into the outfit with that id;
- the wardrobe rules: building an item from the classifier's answer with
  defaults, add, delete, the category view, the data-URL payload, and the
  upload progress counter;
- the favourite-style toggle of the profile;
- the three-screen onboarding step machine.

Every handler is a pure function of the current list, in the module named
after its component. Records are immutable datatypes (`Types`). JavaScript's
`filter`, `split` and `join` are defined once, in `Seqs` and `Text`.
Non-deterministic inputs are parameters:

- each `crypto.randomUUID()` is a supplied id, with a freshness precondition
  where a property needs one;
- the AI services' answers are already-parsed records, `None` when the call
  failed or threw.

Modelling choices that follow the code rather than the type declarations:

- A `ClothingItem` keeps its category and style as strings. The classifier's
  JSON is cast to the enum types without a check (components/Wardrobe.tsx:54-56),
  so any label can be stored. `WellTyped` says when a label is a declared
  enum member.
- An `Outfit` carries `scheduledDate`. The `Outfit` interface in types.ts
  lacks that field, but the scheduler's object spread adds it (App.tsx:71).
- `x || d` on an optional string falls back when the value is missing or
  empty (JavaScript truthiness). This is `Types.OrElse`.
- `dataUrl.split(',')[1]` is `undefined` when there is no comma. It is
  modelled as `None`.

## Model

| member | source | states |
|---|---|---|
| App.RemoveById | App.tsx:66-68 | deleting a saved outfit (and, by the identical filter at App.tsx:75-77, removing a scheduled one) leaves no outfit with that id, keeps every other outfit with every duplicate (the result is as long as the number of outfits with another id), and the result is an order-preserving subsequence of the input; with Seqs.FilterUnique this fixes the result to exactly the source's `filter` |
| Seqs.FilterUnique | App.tsx:67 | an order-preserving subsequence of passing elements whose length is the number of passing elements is the `filter` result: the filter contracts above determine it completely |
| App.RemoveAbsentId | App.tsx:67 | removing an id that is not present returns the list unchanged |
| App.RemoveByIdKeepsUnique | App.tsx:67 | removal preserves the invariant that outfit ids are distinct |
| App.SaveOutfit | App.tsx:42-47 | an already-saved id leaves the list unchanged; otherwise the outfit becomes the head, the old list the tail, and the length grows by one |
| App.SaveIdempotent | App.tsx:44-45 | saving the same outfit twice equals saving it once |
| App.SaveKeepsUnique | App.tsx:44-45 | saving preserves distinct ids in the saved list |
| App.ToggleFavorite | App.tsx:49-55 | a present id is removed entirely (every outfit with it); an absent one is prepended; afterwards the id is present exactly when it was absent before |
| App.ToggleTwiceRestores | App.tsx:50-54 | toggling an unsaved outfit twice returns the original list |
| App.ToggleKeepsUnique | App.tsx:49-55 | toggling preserves distinct ids in the saved list |
| App.FreshOutfits | App.tsx:60-61 | the batch kept for history is the order-preserving subsequence of incoming outfits whose ids are not in the history, every such outfit kept as often as it arrives |
| App.AddToHistory | App.tsx:57-64 | the merged history has at most 50 entries, is a prefix of fresh-incoming ++ old history, is all of it when under the cap, and every entry is old or fresh |
| App.HistoryAddsNoKnownId | App.tsx:60-62 | any entry of the merged history whose id was already known is an old entry, so the merge never adds a known id |
| App.HistoryLosesNothingUnderCap | App.tsx:62 | below the cap the old history is the tail of the merged one and every fresh incoming outfit is kept |
| App.HistoryMergeIdempotentUnderCap | App.tsx:57-64 | merging the same batch a second time changes nothing when the first merge stayed under the cap |
| App.HistoryMergeNotIdempotentAtCap | App.tsx:62 | at the cap a repeated merge can change the history, even when every id is distinct: the oldest entry, cut by the first merge, returns at the front |
| App.ScheduleOutfit | App.tsx:70-73 | scheduling appends exactly one element at the end, under the supplied id, dated, with name, items, occasion, reasoning and image of the source outfit |
| App.UnscheduleAfterSchedule | App.tsx:70-77 | removing the copy just scheduled under a fresh id restores the calendar |
| App.ScheduleKeepsUnique | App.tsx:70-73 | scheduling under a fresh id keeps the calendar's ids distinct |
| OutfitGenerator.InitialStyle | components/OutfitGenerator.tsx:24 | the preselected style is the profile's first favourite if there is one, otherwise Casual |
| OutfitGenerator.Find | components/OutfitGenerator.tsx:54 | lookup succeeds exactly when the id is in the wardrobe, and returns a wardrobe item with that id |
| OutfitGenerator.FindFirst | components/OutfitGenerator.tsx:54 | the item found is the first wardrobe item with the id |
| OutfitGenerator.Resolve | components/OutfitGenerator.tsx:54 | resolved items are wardrobe elements and never outnumber the suggested ids |
| OutfitGenerator.ResolveFollowsIds | components/OutfitGenerator.tsx:54 | the ids of the resolved items are exactly the known suggested ids, in suggestion order |
| OutfitGenerator.AllKnownResolveAll | components/OutfitGenerator.tsx:54 | when every suggested id is known, nothing is dropped |
| OutfitGenerator.Reconcile | components/OutfitGenerator.tsx:49-55 | every resulting outfit is non-empty, uses only wardrobe items, has the selected occasion and a supplied id; the result is the order-preserving subsequence of the converted outfits that have items, each kept as often as it occurs (with Seqs.FilterUnique this is exactly the source's `filter`), so there are at most as many outfits as suggestions |
| OutfitGenerator.ReconcileKeepsNonEmpty | components/OutfitGenerator.tsx:55 | a suggestion survives exactly when at least one of its ids is in the wardrobe |
| OutfitGenerator.ReconcileKeepsUnique | components/OutfitGenerator.tsx:49-55 | with distinct supplied ids (one `crypto.randomUUID()` per suggestion) the generated outfits have distinct ids |
| OutfitGenerator.Generate | components/OutfitGenerator.tsx:31-64 | generation is refused exactly when the wardrobe has fewer than 2 items; a failed call yields no outfits; with enough items a reply yields exactly the reply reconciled against the wardrobe |
| OutfitGenerator.SmallWardrobeIgnoresService | components/OutfitGenerator.tsx:32-35 | with fewer than 2 items the result does not depend on the service's reply and the shown list stays as it was |
| OutfitGenerator.VisualDescriptionLength | components/OutfitGenerator.tsx:70-71 | the image prompt is as long as the item phrases plus one ", " between consecutive phrases plus the fixed connectives, the occasion and the reasoning |
| OutfitGenerator.ApplyImage | components/OutfitGenerator.tsx:75-81 | a truthy image is set on the outfits whose id matches; every other outfit, the length and the order are unchanged; a null or empty image changes nothing |
| OutfitGenerator.ApplyImageChangesOne | components/OutfitGenerator.tsx:76-78 | with distinct ids exactly one outfit changes, and only in its image |
| OutfitGenerator.VisualizeGeneratedChangesOne | components/OutfitGenerator.tsx:66-78 | visualizing an outfit of a freshly generated list sets the picture on that outfit and leaves every other outfit unchanged |
| OutfitGenerator.ApplyImageIdempotent | components/OutfitGenerator.tsx:76-78 | applying the same image twice equals applying it once |
| OutfitGenerator.ApplyImageKeepsIds | components/OutfitGenerator.tsx:76-78 | the sequence of outfit ids is unchanged by the merge |
| Wardrobe.NewItem | components/Wardrobe.tsx:51-58 | the new item takes each answered field as is, and a missing or empty category, color, style or description becomes Other, "Unknown", Casual or "New Item" |
| Wardrobe.NewItemWellTyped | components/Wardrobe.tsx:54-56 | the defaults are enum members, so an answer with valid labels gives an item with valid labels |
| Wardrobe.NewItemKeepsUnknownCategory | components/Wardrobe.tsx:54 | a category outside the enum is stored unchecked |
| Wardrobe.AddItem | components/Wardrobe.tsx:59 | adding prepends: the head is the new item, the tail the old list, and the length grows by one |
| Wardrobe.DeleteItem | components/Wardrobe.tsx:140-142 | deleting removes every item with the id and keeps the others in order, each as often as it occurred |
| Wardrobe.DeleteAfterAdd | components/Wardrobe.tsx:59-142 | deleting an item just added under a fresh id restores the wardrobe |
| Wardrobe.View | components/Wardrobe.tsx:144-146 | with "All" the view is the whole list; with a category it is the order-preserving subsequence of exactly the items with that category, each as often as it occurs |
| Wardrobe.ViewAfterAdd | components/Wardrobe.tsx:59-146 | a new item appears at the top of each view that admits it and leaves the other views unchanged |
| Wardrobe.Payload | components/Wardrobe.tsx:48 | the payload exists exactly when the data URL has a comma, and it contains no comma |
| Wardrobe.PayloadIsFirstDataField | components/Wardrobe.tsx:48 | when the data holds a comma, the payload sent is the data cut at its first comma (the second comma field of the URL), not the whole data |
| Wardrobe.PayloadOfDataUrl | components/Wardrobe.tsx:48 | for a comma-free header and comma-free data, the payload of header + "," + data is the data |
| Wardrobe.PayloadIsDataPart | components/Wardrobe.tsx:120 | the second comma field equals the data of section 3 of RFC 2397 exactly when the data holds no comma |
| Wardrobe.ProcessFile | components/Wardrobe.tsx:43-68 | a successful analysis prepends the new item; a failed one leaves the wardrobe alone |
| Wardrobe.UploadOnlyPrepends | components/Wardrobe.tsx:34-37 | an upload keeps the old wardrobe as the tail and grows it by the number of answered files |
| Wardrobe.Upload | components/Wardrobe.tsx:25-41 | no file means no counter and no change; otherwise the counter is set to 0 of n, then 1..n of n (the first two writes land in one render), never passes the total and ends at n of n; the files are processed in order |
| Wardrobe.CapturePhoto | components/Wardrobe.tsx:117-131 | a capture shows 1 of 1 and adds the analysed item like a processed file |
| Wardrobe.CaptureIsOneFileUpload | components/Wardrobe.tsx:120-131 | a captured photo ends up exactly like a one-file upload |
| Text.Split | components/Wardrobe.tsx:48 | there is always a field; exactly one when the separator is absent; no field holds the separator |
| Text.JoinSplit | components/Wardrobe.tsx:48 | joining the fields with the separator restores the string |
| Text.SplitAfterField | components/Wardrobe.tsx:48 | a comma-free first field is split off and the rest is split on its own |
| Profile.ToggleStyle | components/Profile.tsx:12-22 | a present style is removed everywhere, keeping the others in order and with their multiplicity; an absent one replaces the selection with [style]; name and colours unchanged |
| Profile.ToggleStyleTwice | components/Profile.tsx:15-19 | toggling twice restores a selection that was empty or exactly that style |
| Profile.ToggleKeepsAtMostOne | components/Profile.tsx:15-19 | a toggle keeps a selection of at most one style at most one |
| Profile.AtMostOneFavourite | components/Profile.tsx:15-19 | any series of toggles from at most one style keeps at most one |
| Profile.ToggledStyleIsPreselected | components/OutfitGenerator.tsx:24 | a style just picked on an empty or different selection is the one the generator preselects; the initial profile preselects Casual |
| Profile.InitialProfileAtMostOne | App.tsx:24-28 | from the initial profile ("User", [Casual]) at most one favourite is ever selected and the name stays |
| Profile.ToggleAllKeepsName | components/Profile.tsx:21 | toggles never change the name or the favourite colours |
| Onboarding.HandleNext | components/Onboarding.tsx:29-35 | below the last step "next" advances by exactly one and does not complete; on the last step it completes without moving |
| Onboarding.Handle | components/Onboarding.tsx:40-43 | the close button completes at once; no action moves more than one step |
| Onboarding.RunStaysInRange | components/Onboarding.tsx:11-31 | from a valid step, any series of actions keeps the step within the three screens |
| Onboarding.StepStaysOnScreenFromStart | components/Onboarding.tsx:9-27 | the overlay opens on step 0 and never leaves the three screens, so `steps[step]` (read for icon, title and description at lines 50, 60, 63) is always defined |
| Onboarding.ThreeNextsComplete | components/Onboarding.tsx:11-35 | pressing "next" from the start shows the three titles in their declared order; two presses reach the last screen and the third completes |
| Onboarding.SegmentsLit | components/Onboarding.tsx:52-56 | exactly step + 1 progress segments are lit |
| Onboarding.LabelAnnouncesCompletion | components/Onboarding.tsx:68-70 | the button reads "Start Styling" exactly when pressing it completes, and "Next" exactly when it advances |

## Left out

- services/geminiService.ts: the network calls, prompts and JSON parsing of the hosted model. Its answers are parameters: an `Analysis`, a list of `Suggestion`s, or an optional image string.
- Camera, `FileReader`, canvas and `getUserMedia` plumbing (components/Wardrobe.tsx:43-47, 71-111). A file arrives as its data URL with the classifier's answer.
- `crypto.randomUUID()`: a supplied id. Freshness is a precondition only where a property needs it.
- The `localStorage` onboarding flag and `handleCompleteOnboarding` (App.tsx:30-40): persistence I/O. Onboarding completion is the `Completed` state.
- Async sequencing and React state batching. Each handler is a pure function of the current list. That includes the stale read of `savedOutfits` in the save and toggle handlers.
- The JSX prop wiring between components, which in places does not match the component interfaces (App.tsx:105-111 against components/SavedOutfits.tsx:6-9).
- components/Layout.tsx, components/SavedOutfits.tsx and the calendar view: rendering and navigation only.
- Alerts, spinners, styling and all JSX, including the gender and occasion selectors (components/OutfitGenerator.tsx:13-25). The selected occasion is the `occasion` parameter of `Generate`, `Reconcile` and `VisualDescription`; only the option list and its default "Casual Hangout" are left out. The `Gender` enum and the selected gender only feed the image service's request, which is not modelled.
- Wardrobe.Analysis: JSON fields of a non-string type (numbers, booleans) are not modelled. Each field is a string or absent.
- OutfitGenerator.Suggestion: a suggestion without an `itemIds` array, which would make the mapping throw, is not modelled.
- OutfitGenerator.VisualDescriptionLength: states the prompt's shape through its length and the join of the item phrases, not its full text character by character.

=== FILE: app.dfy ===
/**
 The outfit-list handlers of the top-level `App` component (App.tsx).

 Each handler is modelled as a pure function from the current list to the
 next one. The id that `crypto.randomUUID()` would produce for a scheduled
 copy is a parameter.
 */
module App {
  import opened Types
  import opened Seqs

  /** Number of entries the history keeps. */
  const HistoryCap: nat := 50

  /** The profile the application starts with. */
  const InitialProfile: UserProfile := UserProfile("User", [Casual], [])

  /** `list.filter(o => o.id !== id)`: handleDeleteSaved on the saved list,
      handleRemoveSchedule on the calendar, and the un-favouriting branch of
      handleToggleFavorite all run exactly this filter. */
  function RemoveById(os: seq<Outfit>, id: string): (r: seq<Outfit>)
    ensures id !in OutfitIds(r)
    ensures forall k :: 0 <= k < |os| && os[k].id != id ==> os[k] in r
    ensures forall k :: 0 <= k < |r| ==> r[k] in os
    ensures SubsequenceOf(r, os)
    ensures |r| == Count((o: Outfit) => o.id != id, os)
  {
    Filter((o: Outfit) => o.id != id, os)
  }

  /** Removing an id that is not in the list changes nothing. */
  lemma RemoveAbsentId(os: seq<Outfit>, id: string)
    requires id !in OutfitIds(os)
    ensures RemoveById(os, id) == os
  {
    forall k | 0 <= k < |os| ensures os[k].id != id {
      assert os[k] in os;
    }
    FilterKeepsAll((o: Outfit) => o.id != id, os);
  }

  /** Removing by id keeps the ids of the survivors distinct when they were. */
  lemma {:induction false} RemoveByIdKeepsUnique(os: seq<Outfit>, id: string)
    requires UniqueOutfitIds(os)
    ensures UniqueOutfitIds(RemoveById(os, id))
  {
    if |os| > 0 {
      RemoveByIdKeepsUnique(os[1..], id);
      var rest := RemoveById(os[1..], id);
      if os[0].id != id {
        assert RemoveById(os, id) == [os[0]] + rest;
        forall k | 0 <= k < |rest| ensures rest[k].id != os[0].id {
          var j :| 0 <= j < |os[1..]| && os[1..][j] == rest[k];
          assert os[j + 1] == rest[k];
        }
      } else {
        assert RemoveById(os, id) == rest;
      }
    }
  }

  /** handleSaveOutfit: prepend the outfit unless its id is already saved. */
  function SaveOutfit(saved: seq<Outfit>, outfit: Outfit): (r: seq<Outfit>)
    ensures outfit.id in OutfitIds(saved) ==> r == saved
    ensures outfit.id !in OutfitIds(saved) ==> |r| == |saved| + 1 && r[0] == outfit && r[1..] == saved
    ensures outfit.id in OutfitIds(r)
  {
    if outfit.id in OutfitIds(saved) then saved else [outfit] + saved
  }

  /** Saving the same outfit twice is the same as saving it once. */
  lemma SaveIdempotent(saved: seq<Outfit>, outfit: Outfit)
    ensures SaveOutfit(SaveOutfit(saved, outfit), outfit) == SaveOutfit(saved, outfit)
  {
  }

  /** Saving keeps the saved ids distinct. */
  lemma SaveKeepsUnique(saved: seq<Outfit>, outfit: Outfit)
    requires UniqueOutfitIds(saved)
    ensures UniqueOutfitIds(SaveOutfit(saved, outfit))
  {
    if outfit.id !in OutfitIds(saved) {
      var r := SaveOutfit(saved, outfit);
      forall i, j | 0 <= i < j < |r| ensures r[i].id != r[j].id {
        if i == 0 {
          assert r[j] == saved[j - 1];
          assert saved[j - 1] in saved;
        }
      }
    }
  }

  /** handleToggleFavorite: drop every outfit with the id if one is saved,
      otherwise prepend the outfit. */
  function ToggleFavorite(saved: seq<Outfit>, outfit: Outfit): (r: seq<Outfit>)
    ensures outfit.id in OutfitIds(saved) ==> r == RemoveById(saved, outfit.id)
    ensures outfit.id !in OutfitIds(saved) ==> r == [outfit] + saved
    ensures outfit.id in OutfitIds(r) <==> outfit.id !in OutfitIds(saved)
  {
    if outfit.id in OutfitIds(saved) then RemoveById(saved, outfit.id)
    else [outfit] + saved
  }

  /** Toggling an unsaved outfit twice restores the list. */
  lemma ToggleTwiceRestores(saved: seq<Outfit>, outfit: Outfit)
    requires outfit.id !in OutfitIds(saved)
    ensures ToggleFavorite(ToggleFavorite(saved, outfit), outfit) == saved
  {
    var once := [outfit] + saved;
    assert ToggleFavorite(saved, outfit) == once;
    FilterConcat((o: Outfit) => o.id != outfit.id, [outfit], saved);
    RemoveAbsentId(saved, outfit.id);
  }

  /** Toggling keeps the saved ids distinct. */
  lemma ToggleKeepsUnique(saved: seq<Outfit>, outfit: Outfit)
    requires UniqueOutfitIds(saved)
    ensures UniqueOutfitIds(ToggleFavorite(saved, outfit))
  {
    if outfit.id in OutfitIds(saved) {
      RemoveByIdKeepsUnique(saved, outfit.id);
    } else {
      SaveKeepsUnique(saved, outfit);
    }
  }

  /** The incoming outfits whose ids are not yet in the history. */
  function FreshOutfits(history: seq<Outfit>, incoming: seq<Outfit>): (r: seq<Outfit>)
    ensures forall k :: 0 <= k < |r| ==> r[k] in incoming && r[k].id !in OutfitIds(history)
    ensures forall k :: 0 <= k < |incoming| && incoming[k].id !in OutfitIds(history) ==> incoming[k] in r
    ensures SubsequenceOf(r, incoming)
    ensures |r| == Count((o: Outfit) => o.id !in OutfitIds(history), incoming)
  {
    Filter((o: Outfit) => o.id !in OutfitIds(history), incoming)
  }

  /** handleAddToHistory: prepend the fresh incoming outfits and keep the
      first `HistoryCap` entries. */
  function AddToHistory(history: seq<Outfit>, incoming: seq<Outfit>): (r: seq<Outfit>)
    ensures |r| <= HistoryCap
    ensures r <= FreshOutfits(history, incoming) + history
    ensures |r| == HistoryCap || r == FreshOutfits(history, incoming) + history
    ensures forall k :: 0 <= k < |r| ==> r[k] in history || (r[k] in incoming && r[k].id !in OutfitIds(history))
  {
    Take(FreshOutfits(history, incoming) + history, HistoryCap)
  }

  /** A merge never brings in an outfit whose id the history already had:
      every entry carrying such an id is one of the old entries. */
  lemma HistoryAddsNoKnownId(history: seq<Outfit>, incoming: seq<Outfit>, k: nat)
    requires k < |AddToHistory(history, incoming)|
    requires AddToHistory(history, incoming)[k].id in OutfitIds(history)
    ensures AddToHistory(history, incoming)[k] in history
  {
  }

  /** While the cap is not reached, a merge loses nothing: the old history is
      the tail of the new one and every fresh incoming outfit is at the front. */
  lemma HistoryLosesNothingUnderCap(history: seq<Outfit>, incoming: seq<Outfit>)
    requires |FreshOutfits(history, incoming)| + |history| <= HistoryCap
    ensures AddToHistory(history, incoming)[|FreshOutfits(history, incoming)|..] == history
    ensures forall k :: 0 <= k < |incoming| && incoming[k].id !in OutfitIds(history) ==>
      incoming[k] in AddToHistory(history, incoming)
  {
  }

  /** Merging the same batch again changes nothing, provided the first merge
      did not hit the cap. */
  lemma HistoryMergeIdempotentUnderCap(history: seq<Outfit>, incoming: seq<Outfit>)
    requires |FreshOutfits(history, incoming)| + |history| <= HistoryCap
    ensures AddToHistory(AddToHistory(history, incoming), incoming) == AddToHistory(history, incoming)
  {
    var h1 := AddToHistory(history, incoming);
    var newOnes := FreshOutfits(history, incoming);
    assert h1 == newOnes + history;
    forall k | 0 <= k < |incoming| ensures incoming[k].id in OutfitIds(h1) {
      if incoming[k].id in OutfitIds(history) {
        var o :| o in history && o.id == incoming[k].id;
        assert o in h1;
      } else {
        assert incoming[k] in h1;
      }
    }
    var ids := OutfitIds(h1);
    FilterDropsAll((o: Outfit) => o.id !in ids, incoming);
    assert FreshOutfits(h1, incoming) == [];
    assert [] + h1 == h1;
  }

  /** The `k`-th entry of a full history with distinct one-letter ids. */
  function Filler(k: int): Outfit
  {
    Outfit([(k % HistoryCap + 65) as char], "", [], "", "", None, None)
  }

  /** Once the cap is reached, a second merge of the same batch can change the
      history, even with distinct ids: the oldest entry, pushed out by the first
      merge, comes back at the front. */
  lemma HistoryMergeNotIdempotentAtCap()
    ensures
      var history := seq(HistoryCap, Filler);
      var incoming := [Outfit("new", "", [], "", "", None, None), history[HistoryCap - 1]];
      && UniqueOutfitIds(history)
      && AddToHistory(AddToHistory(history, incoming), incoming) != AddToHistory(history, incoming)
  {
    var history := seq(HistoryCap, Filler);
    var n := Outfit("new", "", [], "", "", None, None);
    var a := history[HistoryCap - 1];
    var incoming := [n, a];
    forall i, j | 0 <= i < j < |history|
      ensures history[i].id != history[j].id
    {
      assert history[i].id[0] != history[j].id[0];
    }
    assert n.id !in OutfitIds(history) by {
      forall x | x in history ensures x.id != n.id {
        var k :| 0 <= k < |history| && history[k] == x;
        assert |x.id| == 1;
      }
    }
    assert a.id in OutfitIds(history);
    assert FreshOutfits(history, incoming) == [n];
    var h1 := AddToHistory(history, incoming);
    assert h1 == ([n] + history)[..HistoryCap];
    assert n.id in OutfitIds(h1) by {
      assert h1[0] == n;
    }
    assert a.id !in OutfitIds(h1) by {
      forall x | x in h1 ensures x.id != a.id {
        var k :| 0 <= k < |h1| && h1[k] == x;
        if k > 0 {
          assert h1[k] == history[k - 1];
          assert x.id[0] != a.id[0];
        }
      }
    }
    assert FreshOutfits(h1, incoming) == [a];
    var h2 := AddToHistory(h1, incoming);
    assert h2[0] == a;
    assert h1[0] == n;
  }

  /** The copy `{ ...outfit, scheduledDate: date, id: newId }`. */
  function ScheduledCopy(outfit: Outfit, date: string, newId: string): Outfit
  {
    outfit.(id := newId, scheduledDate := Some(date))
  }

  /** handleScheduleOutfit: append the dated copy under a fresh id. */
  function ScheduleOutfit(scheduled: seq<Outfit>, outfit: Outfit, date: string, newId: string): (r: seq<Outfit>)
    ensures |r| == |scheduled| + 1 && r[..|scheduled|] == scheduled
    ensures var last := r[|scheduled|];
      && last.id == newId && last.scheduledDate == Some(date)
      && last.name == outfit.name && last.items == outfit.items
      && last.occasion == outfit.occasion && last.reasoning == outfit.reasoning
      && last.generatedImageUrl == outfit.generatedImageUrl
  {
    scheduled + [ScheduledCopy(outfit, date, newId)]
  }

  /** Removing the copy just scheduled under a fresh id restores the calendar. */
  lemma UnscheduleAfterSchedule(scheduled: seq<Outfit>, outfit: Outfit, date: string, newId: string)
    requires newId !in OutfitIds(scheduled)
    ensures RemoveById(ScheduleOutfit(scheduled, outfit, date, newId), newId) == scheduled
  {
    var copy := ScheduledCopy(outfit, date, newId);
    FilterConcat((o: Outfit) => o.id != newId, scheduled, [copy]);
    RemoveAbsentId(scheduled, newId);
  }

  /** Scheduling under a fresh id keeps the calendar's ids distinct. */
  lemma ScheduleKeepsUnique(scheduled: seq<Outfit>, outfit: Outfit, date: string, newId: string)
    requires UniqueOutfitIds(scheduled)
    requires newId !in OutfitIds(scheduled)
    ensures UniqueOutfitIds(ScheduleOutfit(scheduled, outfit, date, newId))
  {
    var r := ScheduleOutfit(scheduled, outfit, date, newId);
    forall i, j | 0 <= i < j < |r| ensures r[i].id != r[j].id {
      if j == |scheduled| {
        assert r[i] == scheduled[i];
        assert scheduled[i] in scheduled;
      } else {
        assert r[i] == scheduled[i] && r[j] == scheduled[j];
      }
    }
  }
}

=== FILE: onboarding.dfy ===
/**
 The three-screen introduction shown on first launch (components/Onboarding.tsx):
 a step counter with a "next" button and a close ("skip") button.
 */
module Onboarding {
  import opened Seqs

  /** The screens' titles, in order. */
  const StepTitles: seq<string> := ["DIGITIZE YOUR CLOSET", "GET WEATHER-SMART FITS", "PLAN YOUR DRIP"]

  const StepCount: nat := |StepTitles|

  const LastStep: nat := StepCount - 1

  /** The step the overlay opens on. */
  const InitialStep: nat := 0

  datatype Event = Next | Skip

  /** Where the overlay is after an event: still on `step`, or completed
      (the completion callback ran on `step`). */
  datatype State = Showing(step: nat) | Completed(step: nat)

  /** handleNext */
  function HandleNext(step: nat): (s: State)
    ensures step < LastStep ==> s == Showing(step + 1)
    ensures step >= LastStep ==> s == Completed(step)
  {
    if step < StepCount - 1 then Showing(step + 1) else Completed(step)
  }

  /** One user action while the overlay is shown; the close button completes at once. */
  function Handle(step: nat, e: Event): (s: State)
    ensures e.Skip? ==> s == Completed(step)
    ensures s.step == step || s == Showing(step + 1)
  {
    match e
    case Next => HandleNext(step)
    case Skip => Completed(step)
  }

  /** Run a series of actions from `step` until one of them completes the overlay;
      actions after that find no overlay. */
  function Run(step: nat, events: seq<Event>): State
    decreases |events|
  {
    if |events| == 0 then Showing(step)
    else match Handle(step, events[0])
      case Completed(s) => Completed(s)
      case Showing(s) => Run(s, events[1..])
  }

  /** From any valid step, whatever the actions, the step stays on a screen. */
  lemma {:induction false} RunStaysInRange(step: nat, events: seq<Event>)
    requires step < StepCount
    ensures Run(step, events).step < StepCount
    decreases |events|
  {
    if |events| > 0 {
      match Handle(step, events[0])
      case Completed(s) =>
      case Showing(s) => RunStaysInRange(s, events[1..]);
    }
  }

  /** The overlay opens on the first screen and never leaves the three screens. */
  lemma StepStaysOnScreenFromStart(events: seq<Event>)
    ensures Run(InitialStep, []) == Showing(0)
    ensures Run(InitialStep, events).step < StepCount
  {
    RunStaysInRange(InitialStep, events);
  }

  /** Pressing "next" from the first screen shows the three titles in their
      declared order and reaches completion on the third press. */
  lemma ThreeNextsComplete()
    ensures Title(Run(InitialStep, []).step) == "DIGITIZE YOUR CLOSET"
    ensures Title(Run(InitialStep, [Next]).step) == "GET WEATHER-SMART FITS"
    ensures Run(InitialStep, [Next, Next]) == Showing(LastStep)
    ensures Title(Run(InitialStep, [Next, Next]).step) == "PLAN YOUR DRIP"
    ensures Run(InitialStep, [Next, Next, Next]) == Completed(LastStep)
  {
    assert [Next, Next][1..] == [Next];
    assert [Next, Next, Next][1..] == [Next, Next];
  }

  /** The progress bar: segment `i` is lit when `i <= step`. */
  function Segments(step: nat): (r: seq<bool>)
    ensures |r| == StepCount
  {
    seq(StepCount, i => i <= step)
  }

  /** How many segments of a bar are lit. */
  function CountLit(bars: seq<bool>): nat
  {
    Count((b: bool) => b, bars)
  }

  lemma {:induction false} CountLitPrefix(bars: seq<bool>, n: nat)
    requires n <= |bars|
    requires forall i :: 0 <= i < |bars| ==> (bars[i] <==> i < n)
    ensures CountLit(bars) == n
  {
    if |bars| > 0 {
      if n > 0 {
        CountLitPrefix(bars[1..], n - 1);
      } else {
        CountLitPrefix(bars[1..], 0);
      }
    }
  }

  /** On a valid step exactly `step + 1` segments are lit. */
  lemma SegmentsLit(step: nat)
    requires step < StepCount
    ensures CountLit(Segments(step)) == step + 1
  {
    CountLitPrefix(Segments(step), step + 1);
  }

  /** The label of the main button. */
  function ButtonLabel(step: nat): string
  {
    if step == StepCount - 1 then "Start Styling" else "Next"
  }

  /** On every screen, the button reads "Start Styling" exactly when pressing
      it finishes the introduction, and "Next" exactly when it moves on. */
  lemma LabelAnnouncesCompletion(step: nat)
    requires step < StepCount
    ensures ButtonLabel(step) == "Start Styling" <==> HandleNext(step).Completed?
    ensures ButtonLabel(step) == "Next" <==> HandleNext(step).Showing?
  {
  }

  /** The title shown on a screen. */
  function Title(step: nat): string
    requires step < StepCount
  {
    StepTitles[step]
  }
}

=== FILE: outfit_generator.dfy ===
/**
 The client-side rules of the AI stylist (components/OutfitGenerator.tsx):
 the guard before asking for suggestions, the reconciliation of the
 suggested item ids with the wardrobe, and merging a generated picture back
 into the displayed outfits.

 The hosted model is not part of this model: its already-parsed reply is a
 parameter (`None` when the call failed), and the ids `crypto.randomUUID()`
 would hand out are supplied, one per suggestion.
 */
module OutfitGenerator {
  import opened Types
  import opened Seqs
  import Text

  /** Fewer wardrobe items than this and no suggestions are requested. */
  const MinWardrobe: nat := 2

  /** One outfit as the model proposes it: wardrobe ids rather than items. */
  datatype Suggestion = Suggestion(name: string, itemIds: seq<string>, reasoning: string)

  /** What pressing "generate" leads to: the guard refuses, or the service is
      asked and the displayed list becomes `outfits`. */
  datatype Generation = Refused | Answered(outfits: seq<Outfit>)

  /** The preselected style: the profile's first favourite, otherwise Casual. */
  function InitialStyle(profile: UserProfile): (s: StyleType)
    ensures |profile.favoriteStyles| > 0 ==> s == profile.favoriteStyles[0] && s in profile.favoriteStyles
    ensures |profile.favoriteStyles| == 0 ==> s == Casual
  {
    if |profile.favoriteStyles| > 0 then profile.favoriteStyles[0] else Casual
  }

  /** `wardrobe.find(item => item.id === id)`: the first item with the id. */
  function Find(wardrobe: seq<ClothingItem>, id: string): (r: Option<ClothingItem>)
    ensures r.Some? <==> id in ItemIds(wardrobe)
    ensures r.Some? ==> r.value in wardrobe && r.value.id == id
  {
    if |wardrobe| == 0 then None
    else if wardrobe[0].id == id then Some(wardrobe[0])
    else Find(wardrobe[1..], id)
  }

  /** The item `Find` returns is the first one carrying the id. */
  lemma {:induction false} FindFirst(wardrobe: seq<ClothingItem>, id: string)
    requires id in ItemIds(wardrobe)
    ensures exists k :: (0 <= k < |wardrobe| && wardrobe[k] == Find(wardrobe, id).value
                         && forall j :: 0 <= j < k ==> wardrobe[j].id != id)
  {
    if wardrobe[0].id != id {
      var x :| x in wardrobe && x.id == id;
      assert x in wardrobe[1..];
      FindFirst(wardrobe[1..], id);
      var k :| 0 <= k < |wardrobe[1..]| && wardrobe[1..][k] == Find(wardrobe[1..], id).value
        && forall j :: 0 <= j < k ==> wardrobe[1..][j].id != id;
      assert wardrobe[k + 1] == Find(wardrobe, id).value;
      forall j | 0 <= j < k + 1 ensures wardrobe[j].id != id {
        if j > 0 { assert wardrobe[j] == wardrobe[1..][j - 1]; }
      }
    }
  }

  /** `itemIds.map(find).filter(found)`: the wardrobe items named by the ids,
      in the order of the ids, unknown ids dropped. */
  function Resolve(itemIds: seq<string>, wardrobe: seq<ClothingItem>): (r: seq<ClothingItem>)
    ensures |r| <= |itemIds|
    ensures forall k :: 0 <= k < |r| ==> r[k] in wardrobe
  {
    if |itemIds| == 0 then []
    else match Find(wardrobe, itemIds[0])
      case Some(item) => [item] + Resolve(itemIds[1..], wardrobe)
      case None => Resolve(itemIds[1..], wardrobe)
  }

  /** The ids of a list of items, in order. */
  function IdsInOrder(items: seq<ClothingItem>): (r: seq<string>)
    ensures |r| == |items|
  {
    if |items| == 0 then [] else [items[0].id] + IdsInOrder(items[1..])
  }

  /** The ids the wardrobe knows, kept in the order given. */
  function KnownIds(itemIds: seq<string>, wardrobe: seq<ClothingItem>): seq<string>
  {
    var known := ItemIds(wardrobe);
    Filter((id: string) => id in known, itemIds)
  }

  /** Resolution follows the suggested ids exactly, minus the unknown ones:
      reading back the ids of the resolved items gives the known suggested ids
      in their original order. */
  lemma {:induction false} ResolveFollowsIds(itemIds: seq<string>, wardrobe: seq<ClothingItem>)
    ensures IdsInOrder(Resolve(itemIds, wardrobe)) == KnownIds(itemIds, wardrobe)
  {
    if |itemIds| > 0 {
      ResolveFollowsIds(itemIds[1..], wardrobe);
      var rest := Resolve(itemIds[1..], wardrobe);
      match Find(wardrobe, itemIds[0])
      case Some(item) =>
        assert Resolve(itemIds, wardrobe) == [item] + rest;
        assert ([item] + rest)[1..] == rest;
      case None =>
    }
  }

  /** When every suggested id is in the wardrobe, nothing is dropped. */
  lemma AllKnownResolveAll(itemIds: seq<string>, wardrobe: seq<ClothingItem>)
    requires forall k :: 0 <= k < |itemIds| ==> itemIds[k] in ItemIds(wardrobe)
    ensures IdsInOrder(Resolve(itemIds, wardrobe)) == itemIds
  {
    ResolveFollowsIds(itemIds, wardrobe);
    var known := ItemIds(wardrobe);
    FilterKeepsAll((id: string) => id in known, itemIds);
  }

  /** One outfit per suggestion, before empty ones are dropped. */
  function ToOutfits(suggestions: seq<Suggestion>, newIds: seq<string>, wardrobe: seq<ClothingItem>, occasion: string): seq<Outfit>
    requires |newIds| == |suggestions|
  {
    seq(|suggestions|, k requires 0 <= k < |suggestions| =>
      Outfit(newIds[k], suggestions[k].name, Resolve(suggestions[k].itemIds, wardrobe),
             occasion, suggestions[k].reasoning, None, None))
  }

  /** The reconciled outfits: converted, then those left without items dropped. */
  function Reconcile(suggestions: seq<Suggestion>, newIds: seq<string>, wardrobe: seq<ClothingItem>, occasion: string): (r: seq<Outfit>)
    requires |newIds| == |suggestions|
    ensures |r| <= |suggestions|
    ensures SubsequenceOf(r, ToOutfits(suggestions, newIds, wardrobe, occasion))
    ensures |r| == Count((o: Outfit) => |o.items| > 0, ToOutfits(suggestions, newIds, wardrobe, occasion))
    ensures forall k :: 0 <= k < |r| ==> |r[k].items| > 0 && r[k].occasion == occasion
    ensures forall k, j :: 0 <= k < |r| && 0 <= j < |r[k].items| ==> r[k].items[j] in wardrobe
    ensures forall k :: 0 <= k < |r| ==> r[k].id in newIds && r[k].generatedImageUrl == None
    ensures forall k :: 0 <= k < |r| ==> exists s :: (0 <= s < |suggestions| &&
                                                     r[k].name == suggestions[s].name &&
                                                     r[k].reasoning == suggestions[s].reasoning &&
                                                     |r[k].items| <= |suggestions[s].itemIds|)
  {
    var all := ToOutfits(suggestions, newIds, wardrobe, occasion);
    var r := Filter((o: Outfit) => |o.items| > 0, all);
    assert forall k :: 0 <= k < |r| ==> r[k] in all;
    r
  }

  /** Dropping outfits from a list never makes two ids equal. */
  lemma {:induction false} SubsequenceKeepsUnique(r: seq<Outfit>, s: seq<Outfit>)
    requires SubsequenceOf(r, s) && UniqueOutfitIds(s)
    ensures UniqueOutfitIds(r)
    decreases |s|
  {
    if |r| > 0 {
      var tail := s[1..];
      assert UniqueOutfitIds(tail) by {
        forall i, j | 0 <= i < j < |tail|
          ensures tail[i].id != tail[j].id
        {
          assert tail[i] == s[i + 1] && tail[j] == s[j + 1];
        }
      }
      if r[0] == s[0] && SubsequenceOf(r[1..], tail) {
        SubsequenceKeepsUnique(r[1..], tail);
        SubsequenceMembers(r[1..], tail);
        forall i, j | 0 <= i < j < |r|
          ensures r[i].id != r[j].id
        {
          assert r[j] == r[1..][j - 1];
          if i == 0 {
            var m :| 0 <= m < |tail| && tail[m] == r[j];
            assert s[m + 1] == r[j];
          } else {
            assert r[i] == r[1..][i - 1];
          }
        }
      } else {
        SubsequenceKeepsUnique(r, tail);
      }
    }
  }

  /** With one distinct fresh id per suggestion (as `crypto.randomUUID()`
      hands out), the generated outfits have distinct ids. */
  lemma ReconcileKeepsUnique(suggestions: seq<Suggestion>, newIds: seq<string>, wardrobe: seq<ClothingItem>, occasion: string)
    requires |newIds| == |suggestions|
    requires forall i, j :: 0 <= i < j < |newIds| ==> newIds[i] != newIds[j]
    ensures UniqueOutfitIds(Reconcile(suggestions, newIds, wardrobe, occasion))
  {
    var all := ToOutfits(suggestions, newIds, wardrobe, occasion);
    assert UniqueOutfitIds(all);
    SubsequenceKeepsUnique(Reconcile(suggestions, newIds, wardrobe, occasion), all);
  }

  /** A suggestion survives exactly when at least one of its ids is known. */
  lemma ReconcileKeepsNonEmpty(suggestions: seq<Suggestion>, newIds: seq<string>, wardrobe: seq<ClothingItem>, occasion: string, s: nat)
    requires |newIds| == |suggestions| && s < |suggestions|
    ensures |KnownIds(suggestions[s].itemIds, wardrobe)| > 0 <==>
      ToOutfits(suggestions, newIds, wardrobe, occasion)[s] in Reconcile(suggestions, newIds, wardrobe, occasion)
  {
    ResolveFollowsIds(suggestions[s].itemIds, wardrobe);
    var o := ToOutfits(suggestions, newIds, wardrobe, occasion)[s];
    assert |o.items| == |KnownIds(suggestions[s].itemIds, wardrobe)|;
  }

  /** handleGenerate */
  function Generate(wardrobe: seq<ClothingItem>, occasion: string, reply: Option<seq<Suggestion>>, newIds: seq<string>): (g: Generation)
    requires reply.Some? ==> |newIds| == |reply.value|
    ensures g.Refused? <==> |wardrobe| < MinWardrobe
    ensures g.Answered? && reply.None? ==> g.outfits == []
    ensures |wardrobe| >= MinWardrobe && reply.Some? ==>
      g == Answered(Reconcile(reply.value, newIds, wardrobe, occasion))
    ensures g.Answered? && reply.Some? ==> |g.outfits| <= |reply.value|
    ensures g.Answered? ==> forall k, j :: 0 <= k < |g.outfits| && 0 <= j < |g.outfits[k].items| ==>
      g.outfits[k].items[j] in wardrobe
    ensures g.Answered? ==> forall k :: 0 <= k < |g.outfits| ==>
      |g.outfits[k].items| > 0 && g.outfits[k].occasion == occasion
  {
    if |wardrobe| < MinWardrobe then Refused
    else match reply
      case None => Answered([])
      case Some(suggestions) => Answered(Reconcile(suggestions, newIds, wardrobe, occasion))
  }

  /** The list shown after pressing "generate": a refusal keeps what was shown. */
  function Displayed(shown: seq<Outfit>, g: Generation): seq<Outfit>
  {
    match g
    case Refused => shown
    case Answered(os) => os
  }

  /** With a wardrobe too small the reply is never looked at: any two replies
      give the same refusal, and the shown outfits stay as they were. */
  lemma SmallWardrobeIgnoresService(wardrobe: seq<ClothingItem>, occasion: string,
                                    reply1: Option<seq<Suggestion>>, ids1: seq<string>,
                                    reply2: Option<seq<Suggestion>>, ids2: seq<string>,
                                    shown: seq<Outfit>)
    requires |wardrobe| < MinWardrobe
    requires reply1.Some? ==> |ids1| == |reply1.value|
    requires reply2.Some? ==> |ids2| == |reply2.value|
    ensures Generate(wardrobe, occasion, reply1, ids1) == Generate(wardrobe, occasion, reply2, ids2)
    ensures Displayed(shown, Generate(wardrobe, occasion, reply1, ids1)) == shown
  {
  }

  /** `${color} ${style} ${category} (${description})` */
  function ItemPhrase(i: ClothingItem): string
  {
    i.color + " " + i.style + " " + i.category + " (" + i.description + ")"
  }

  function Phrases(items: seq<ClothingItem>): (r: seq<string>)
    ensures |r| == |items|
    ensures forall k :: 0 <= k < |r| ==> r[k] == ItemPhrase(items[k])
  {
    seq(|items|, k requires 0 <= k < |items| => ItemPhrase(items[k]))
  }

  /** The description handed to the image generator. */
  function VisualDescription(outfit: Outfit): string
  {
    Text.Join(Phrases(outfit.items), ", ") + ". The user is going to a " + outfit.occasion
      + ". Style: " + outfit.reasoning
  }

  /** The description lists every item phrase once, separated by ", ", and then
      the occasion and reasoning text; so its length is fixed by those parts. */
  lemma VisualDescriptionLength(outfit: Outfit)
    requires |outfit.items| > 0
    ensures |VisualDescription(outfit)| ==
      Text.TotalLength(Phrases(outfit.items)) + 2 * (|outfit.items| - 1)
      + |". The user is going to a "| + |outfit.occasion| + |". Style: "| + |outfit.reasoning|
  {
    Text.JoinLength(Phrases(outfit.items), ", ");
  }

  /** handleVisualize, after the image service answered `image`: a truthy
      image goes onto every shown outfit with the id; otherwise nothing changes. */
  function ApplyImage(shown: seq<Outfit>, id: string, image: Option<string>): (r: seq<Outfit>)
    ensures |r| == |shown|
    ensures !Truthy(image) ==> r == shown
    ensures forall k :: 0 <= k < |r| && shown[k].id != id ==> r[k] == shown[k]
    ensures Truthy(image) ==> forall k :: 0 <= k < |r| && shown[k].id == id ==>
      r[k] == shown[k].(generatedImageUrl := image)
  {
    if Truthy(image) then
      seq(|shown|, k requires 0 <= k < |shown| =>
        if shown[k].id == id then shown[k].(generatedImageUrl := image) else shown[k])
    else shown
  }

  /** With distinct ids, a successful visualization changes exactly the one
      outfit carrying the id, and only its image. */
  lemma ApplyImageChangesOne(shown: seq<Outfit>, k: nat, image: Option<string>)
    requires UniqueOutfitIds(shown) && k < |shown| && Truthy(image)
    ensures var r := ApplyImage(shown, shown[k].id, image);
      && r[k].generatedImageUrl == image
      && r[k].(generatedImageUrl := shown[k].generatedImageUrl) == shown[k]
      && forall j :: 0 <= j < |shown| && j != k ==> r[j] == shown[j]
  {
  }

  /** handleVisualize on a freshly generated list: the picture lands on the
      chosen outfit only, since the generated outfits carry distinct ids. */
  lemma VisualizeGeneratedChangesOne(suggestions: seq<Suggestion>, newIds: seq<string>, wardrobe: seq<ClothingItem>,
                                     occasion: string, k: nat, image: Option<string>)
    requires |newIds| == |suggestions|
    requires forall i, j :: 0 <= i < j < |newIds| ==> newIds[i] != newIds[j]
    requires k < |Reconcile(suggestions, newIds, wardrobe, occasion)| && Truthy(image)
    ensures var shown := Reconcile(suggestions, newIds, wardrobe, occasion);
      var r := ApplyImage(shown, shown[k].id, image);
      && r[k] == shown[k].(generatedImageUrl := image)
      && forall j :: 0 <= j < |shown| && j != k ==> r[j] == shown[j]
  {
    ReconcileKeepsUnique(suggestions, newIds, wardrobe, occasion);
    ApplyImageChangesOne(Reconcile(suggestions, newIds, wardrobe, occasion), k, image);
  }

  /** Applying the same image twice is the same as applying it once. */
  lemma ApplyImageIdempotent(shown: seq<Outfit>, id: string, image: Option<string>)
    ensures ApplyImage(ApplyImage(shown, id, image), id, image) == ApplyImage(shown, id, image)
  {
  }

  /** Ids, and so the order of the outfits, survive the merge. */
  lemma ApplyImageKeepsIds(shown: seq<Outfit>, id: string, image: Option<string>)
    ensures IdsOf(ApplyImage(shown, id, image)) == IdsOf(shown)
  {
  }

  /** The ids of a list of outfits, in order. */
  function IdsOf(os: seq<Outfit>): (r: seq<string>)
    ensures |r| == |os|
  {
    seq(|os|, k requires 0 <= k < |os| => os[k].id)
  }
}

=== FILE: profile.dfy ===
/**
 The style preference toggle of the profile screen (components/Profile.tsx).
 */
module Profile {
  import opened Types
  import opened Seqs
  import App
  import OutfitGenerator

  /** toggleStyle: a favourite style is removed (every occurrence); any other
      style replaces the whole selection. */
  function ToggleStyle(profile: UserProfile, style: StyleType): (r: UserProfile)
    ensures r.name == profile.name && r.favoriteColors == profile.favoriteColors
    ensures style in profile.favoriteStyles ==>
      && style !in r.favoriteStyles
      && SubsequenceOf(r.favoriteStyles, profile.favoriteStyles)
      && |r.favoriteStyles| == Count((s: StyleType) => s != style, profile.favoriteStyles)
      && forall k :: 0 <= k < |profile.favoriteStyles| && profile.favoriteStyles[k] != style ==>
           profile.favoriteStyles[k] in r.favoriteStyles
    ensures style !in profile.favoriteStyles ==> r.favoriteStyles == [style]
    ensures style in r.favoriteStyles <==> style !in profile.favoriteStyles
  {
    var current := profile.favoriteStyles;
    var next := if style in current then Filter((s: StyleType) => s != style, current) else [style];
    profile.(favoriteStyles := next)
  }

  /** Toggling the same style twice restores a selection that was empty or
      was exactly that style. */
  lemma ToggleStyleTwice(profile: UserProfile, style: StyleType)
    requires profile.favoriteStyles == [] || profile.favoriteStyles == [style]
    ensures ToggleStyle(ToggleStyle(profile, style), style) == profile
  {
  }

  /** The result of a series of toggles. */
  function ToggleAll(profile: UserProfile, styles: seq<StyleType>): UserProfile
    decreases |styles|
  {
    if |styles| == 0 then profile else ToggleAll(ToggleStyle(profile, styles[0]), styles[1..])
  }

  /** A toggle never grows a selection of at most one style beyond one. */
  lemma ToggleKeepsAtMostOne(profile: UserProfile, style: StyleType)
    requires |profile.favoriteStyles| <= 1
    ensures |ToggleStyle(profile, style).favoriteStyles| <= 1
  {
  }

  /** Starting from the application's initial profile, whatever the user
      toggles, at most one favourite style is ever selected. */
  lemma {:induction false} AtMostOneFavourite(profile: UserProfile, styles: seq<StyleType>)
    requires |profile.favoriteStyles| <= 1
    ensures |ToggleAll(profile, styles).favoriteStyles| <= 1
    decreases |styles|
  {
    if |styles| > 0 {
      ToggleKeepsAtMostOne(profile, styles[0]);
      AtMostOneFavourite(ToggleStyle(profile, styles[0]), styles[1..]);
    }
  }

  lemma InitialProfileAtMostOne(styles: seq<StyleType>)
    ensures |ToggleAll(App.InitialProfile, styles).favoriteStyles| <= 1
    ensures ToggleAll(App.InitialProfile, styles).name == "User"
  {
    AtMostOneFavourite(App.InitialProfile, styles);
    ToggleAllKeepsName(App.InitialProfile, styles);
  }

  /** Toggles never touch the name or the colours. */
  lemma {:induction false} ToggleAllKeepsName(profile: UserProfile, styles: seq<StyleType>)
    ensures ToggleAll(profile, styles).name == profile.name
    ensures ToggleAll(profile, styles).favoriteColors == profile.favoriteColors
    decreases |styles|
  {
    if |styles| > 0 {
      ToggleAllKeepsName(ToggleStyle(profile, styles[0]), styles[1..]);
    }
  }

  /** The style a user has just picked on the profile screen is the one the
      generator preselects; the default profile preselects Casual. */
  lemma ToggledStyleIsPreselected(profile: UserProfile, style: StyleType)
    requires style !in profile.favoriteStyles
    ensures OutfitGenerator.InitialStyle(ToggleStyle(profile, style)) == style
    ensures OutfitGenerator.InitialStyle(App.InitialProfile) == Casual
  {
  }
}

=== FILE: seqs.dfy ===
/**
 Generic sequence rules shared by every list handler of the application.

 JavaScript's `Array.prototype.filter` is the workhorse of the source: deleting
 by id, un-favouriting, filtering the wardrobe view, de-duplicating history and
 dropping empty outfits are all `filter` calls. `Filter` is that operation,
 defined once, with the promise every caller relies on: the result is the
 order-preserving subsequence of exactly the elements that pass the test.
 */
module Seqs {

  /** `r` can be obtained from `s` by deleting elements, keeping the order. */
  ghost predicate SubsequenceOf<T>(r: seq<T>, s: seq<T>)
    decreases |s|
  {
    if |r| == 0 then true
    else if |s| == 0 then false
    else (r[0] == s[0] && SubsequenceOf(r[1..], s[1..])) || SubsequenceOf(r, s[1..])
  }

  /** Number of elements of `s` that pass `p`. */
  function Count<T>(p: T -> bool, s: seq<T>): nat
  {
    if |s| == 0 then 0 else (if p(s[0]) then 1 else 0) + Count(p, s[1..])
  }

  /** `s.filter(p)` */
  function Filter<T>(p: T -> bool, s: seq<T>): (r: seq<T>)
    ensures |r| == Count(p, s) <= |s|
    ensures forall k :: 0 <= k < |r| ==> r[k] in s && p(r[k])
    ensures forall k :: 0 <= k < |s| && p(s[k]) ==> s[k] in r
    ensures SubsequenceOf(r, s)
  {
    if |s| == 0 then []
    else if p(s[0]) then [s[0]] + Filter(p, s[1..])
    else Filter(p, s[1..])
  }

  /** Filtering a sequence whose elements all pass changes nothing. */
  lemma {:induction false} FilterKeepsAll<T>(p: T -> bool, s: seq<T>)
    requires forall k :: 0 <= k < |s| ==> p(s[k])
    ensures Filter(p, s) == s
  {
    if |s| > 0 {
      FilterKeepsAll(p, s[1..]);
    }
  }

  /** Filtering a sequence none of whose elements pass yields nothing. */
  lemma {:induction false} FilterDropsAll<T>(p: T -> bool, s: seq<T>)
    requires forall k :: 0 <= k < |s| ==> !p(s[k])
    ensures Filter(p, s) == []
  {
    if |s| > 0 {
      FilterDropsAll(p, s[1..]);
    }
  }

  /** Filtering distributes over concatenation. */
  lemma {:induction false} FilterConcat<T>(p: T -> bool, a: seq<T>, b: seq<T>)
    ensures Filter(p, a + b) == Filter(p, a) + Filter(p, b)
  {
    if |a| > 0 {
      assert (a + b)[0] == a[0];
      assert (a + b)[1..] == a[1..] + b;
      FilterConcat(p, a[1..], b);
    } else {
      assert a + b == b;
    }
  }

  /** Every element of a subsequence is an element of the whole. */
  lemma {:induction false} SubsequenceMembers<T>(r: seq<T>, s: seq<T>)
    requires SubsequenceOf(r, s)
    ensures forall k :: 0 <= k < |r| ==> r[k] in s
    decreases |s|
  {
    if |r| > 0 {
      assert s == [s[0]] + s[1..];
      if r[0] == s[0] && SubsequenceOf(r[1..], s[1..]) {
        SubsequenceMembers(r[1..], s[1..]);
        forall k | 1 <= k < |r|
          ensures r[k] in s
        {
          assert r[k] == r[1..][k - 1];
        }
      } else {
        SubsequenceMembers(r, s[1..]);
      }
    }
  }

  /** A subsequence made of passing elements has at most as many elements as pass. */
  lemma {:induction false} SubsequenceCountBound<T>(p: T -> bool, r: seq<T>, s: seq<T>)
    requires SubsequenceOf(r, s)
    requires forall k :: 0 <= k < |r| ==> p(r[k])
    ensures |r| <= Count(p, s)
    decreases |s|
  {
    if |r| > 0 {
      if r[0] == s[0] && SubsequenceOf(r[1..], s[1..]) {
        SubsequenceCountBound(p, r[1..], s[1..]);
      } else {
        SubsequenceCountBound(p, r, s[1..]);
      }
    }
  }

  /** The order-preserving subsequence of passing elements that is as long as
      the number of passing elements is the filter's result: no other list
      meets all three conditions, so they characterise `filter` completely. */
  lemma {:induction false} FilterUnique<T>(p: T -> bool, r: seq<T>, s: seq<T>)
    requires SubsequenceOf(r, s)
    requires forall k :: 0 <= k < |r| ==> p(r[k])
    requires |r| == Count(p, s)
    ensures r == Filter(p, s)
    decreases |s|
  {
    if |s| > 0 && |r| > 0 {
      if r[0] == s[0] && SubsequenceOf(r[1..], s[1..]) {
        FilterUnique(p, r[1..], s[1..]);
        assert r == [r[0]] + r[1..];
      } else {
        SubsequenceCountBound(p, r, s[1..]);
        FilterUnique(p, r, s[1..]);
      }
    }
  }

  /** The first `n` elements of `s`, or all of `s` when it is shorter: `s.slice(0, n)`. */
  function Take<T>(s: seq<T>, n: nat): (r: seq<T>)
    ensures |r| <= n && |r| <= |s|
    ensures |r| == n || r == s
    ensures forall k :: 0 <= k < |r| ==> r[k] == s[k]
  {
    if |s| <= n then s else s[..n]
  }
}

=== FILE: text.dfy ===
/**
 The two JavaScript string operations the application relies on:
 `String.prototype.split` with a one-character separator and
 `Array.prototype.join`. Strings are sequences of UTF-16 code units in
 JavaScript; here they are `seq<char>` and no normalisation is involved.
 */
module Text {

  /** `s.split(sep)` for a single-character separator: every field, empty ones
      included, so there is always at least one field. */
  function Split(s: string, sep: char): (r: seq<string>)
    ensures |r| >= 1
    ensures |r| == 1 <==> sep !in s
    ensures forall k :: 0 <= k < |r| ==> sep !in r[k]
  {
    if |s| == 0 then [""]
    else
      var rest := Split(s[1..], sep);
      if s[0] == sep then [""] + rest
      else [[s[0]] + rest[0]] + rest[1..]
  }

  /** `parts.join(sep)`; the empty array joins to the empty string. */
  function Join(parts: seq<string>, sep: string): string
  {
    if |parts| == 0 then ""
    else if |parts| == 1 then parts[0]
    else parts[0] + sep + Join(parts[1..], sep)
  }

  /** Total length of the parts. */
  function TotalLength(parts: seq<string>): nat
  {
    if |parts| == 0 then 0 else |parts[0]| + TotalLength(parts[1..])
  }

  /** Joining adds exactly one separator between consecutive parts. */
  lemma {:induction false} JoinLength(parts: seq<string>, sep: string)
    requires |parts| >= 1
    ensures |Join(parts, sep)| == TotalLength(parts) + (|parts| - 1) * |sep|
  {
    if |parts| > 1 {
      JoinLength(parts[1..], sep);
    }
  }

  /** Joining the fields of a split with the same separator restores the string. */
  lemma {:induction false} JoinSplit(s: string, sep: char)
    ensures Join(Split(s, sep), [sep]) == s
  {
    if |s| > 0 {
      var rest := Split(s[1..], sep);
      JoinSplit(s[1..], sep);
      if s[0] == sep {
        assert Join(Split(s, sep), [sep]) == "" + [sep] + Join(rest, [sep]);
      } else {
        var r := Split(s, sep);
        if |rest| == 1 {
          assert r == [[s[0]] + rest[0]];
        } else {
          assert r[1..] == rest[1..];
          assert Join(rest, [sep]) == rest[0] + [sep] + Join(rest[1..], [sep]);
        }
      }
    }
  }

  /** A field without the separator, then the separator, then anything:
      the first field is that prefix and the remaining fields are those of the rest. */
  lemma {:induction false} SplitAfterField(h: string, sep: char, t: string)
    requires sep !in h
    ensures Split(h + [sep] + t, sep) == [h] + Split(t, sep)
  {
    if |h| == 0 {
      assert h + [sep] + t == [sep] + t;
      assert ([sep] + t)[1..] == t;
    } else {
      var s := h + [sep] + t;
      assert s[0] == h[0];
      assert s[1..] == h[1..] + [sep] + t;
      SplitAfterField(h[1..], sep, t);
      assert [h[0]] + h[1..] == h;
    }
  }

  /** Index of the first occurrence of `c` in `s`. */
  function IndexOf(s: string, c: char): (i: nat)
    requires c in s
    ensures i < |s| && s[i] == c
    ensures c !in s[..i]
  {
    if s[0] == c then 0 else
      assert s[1..][IndexOf(s[1..], c)] == c;
      assert s[..IndexOf(s[1..], c) + 1] == [s[0]] + s[1..][..IndexOf(s[1..], c)];
      IndexOf(s[1..], c) + 1
  }
}

=== FILE: types.dfy ===
/**
 The records and enumerations every component shares.

 TypeScript string enums are strings at run time, and the wardrobe stores
 whatever category and style labels the image classifier returned, without
 checking them against the enums. A `ClothingItem` therefore keeps its
 category and style as labels (`string`); the enum datatypes and their
 `Label` functions say which labels are the declared ones.
 */
module Types {

  datatype Option<T> = None | Some(value: T)

  datatype ClothingCategory = Top | Bottom | Shoes | Outerwear | Accessory | Other

  datatype StyleType = Casual | Formal | Streetwear | Vintage | Sporty | Minimalist

  function CategoryLabel(c: ClothingCategory): string
  {
    match c
    case Top => "Top"
    case Bottom => "Bottom"
    case Shoes => "Shoes"
    case Outerwear => "Outerwear"
    case Accessory => "Accessory"
    case Other => "Other"
  }

  function StyleLabel(s: StyleType): string
  {
    match s
    case Casual => "Casual"
    case Formal => "Formal"
    case Streetwear => "Streetwear"
    case Vintage => "Vintage"
    case Sporty => "Sporty"
    case Minimalist => "Minimalist"
  }

  /** Is `s` the value of some `ClothingCategory` member? */
  predicate IsCategoryLabel(s: string)
  {
    exists c: ClothingCategory :: CategoryLabel(c) == s
  }

  /** Is `s` the value of some `StyleType` member? */
  predicate IsStyleLabel(s: string)
  {
    exists t: StyleType :: StyleLabel(t) == s
  }

  datatype ClothingItem = ClothingItem(
    id: string,
    imageUrl: string,
    category: string,
    color: string,
    style: string,
    description: string)

  /** An item whose category and style are members of their enums. */
  predicate WellTyped(item: ClothingItem)
  {
    IsCategoryLabel(item.category) && IsStyleLabel(item.style)
  }

  /** An outfit as it exists at run time: the optional image added by the
      visualizer and the optional date added by the scheduler (which spreads
      a `scheduledDate` property into the copy). */
  datatype Outfit = Outfit(
    id: string,
    name: string,
    items: seq<ClothingItem>,
    occasion: string,
    reasoning: string,
    generatedImageUrl: Option<string>,
    scheduledDate: Option<string>)

  datatype UserProfile = UserProfile(
    name: string,
    favoriteStyles: seq<StyleType>,
    favoriteColors: seq<string>)

  /** The ids present in a list of outfits. */
  function OutfitIds(os: seq<Outfit>): set<string>
  {
    set o | o in os :: o.id
  }

  /** The ids present in a list of clothing items. */
  function ItemIds(items: seq<ClothingItem>): set<string>
  {
    set i | i in items :: i.id
  }

  /** No two outfits of the list share an id. */
  predicate UniqueOutfitIds(os: seq<Outfit>)
  {
    forall i, j :: 0 <= i < j < |os| ==> os[i].id != os[j].id
  }

  /** JavaScript truthiness of an optional string: present and non-empty. */
  predicate Truthy(o: Option<string>)
  {
    o.Some? && o.value != ""
  }

  /** `o || fallback` for an optional string. */
  function OrElse(o: Option<string>, fallback: string): (r: string)
    ensures Truthy(o) ==> r == o.value
    ensures !Truthy(o) ==> r == fallback
  {
    if Truthy(o) then o.value else fallback
  }
}

=== FILE: wardrobe.dfy ===
/**
 The wardrobe list rules (components/Wardrobe.tsx): building an item from the
 classifier's answer, adding, deleting, the category view, taking the payload
 out of a data URL, and the progress counter of a multi-file upload.

 Reading files, the camera and the classifier are not modelled: each file
 arrives as its data URL together with the classifier's already-parsed answer
 (`None` when the call threw) and the id `crypto.randomUUID()` would give it.
 */
module Wardrobe {
  import opened Types
  import opened Seqs
  import Text

  /** The classifier's answer, `Partial<ClothingItem>`: every field may be missing. */
  datatype Analysis = Analysis(
    category: Option<string>,
    color: Option<string>,
    style: Option<string>,
    description: Option<string>)

  /** One file of an upload, with everything the outside world supplies for it. */
  datatype FileResult = FileResult(dataUrl: string, newId: string, analysis: Option<Analysis>)

  /** The "Analyzing items... (current / total)" counter. */
  datatype Progress = Progress(current: nat, total: nat)

  /** The category buttons: 'All' or one category. */
  datatype CategoryFilter = All | Only(category: ClothingCategory)

  /** The item built from an analysed picture: each answered field is taken as
      is, each missing or empty one falls back to its default. */
  function NewItem(id: string, dataUrl: string, a: Analysis): (item: ClothingItem)
    ensures item.id == id && item.imageUrl == dataUrl
    ensures item.category == (if Truthy(a.category) then a.category.value else CategoryLabel(Other))
    ensures item.color == (if Truthy(a.color) then a.color.value else "Unknown")
    ensures item.style == (if Truthy(a.style) then a.style.value else StyleLabel(Casual))
    ensures item.description == (if Truthy(a.description) then a.description.value else "New Item")
  {
    ClothingItem(
      id, dataUrl,
      OrElse(a.category, CategoryLabel(Other)),
      OrElse(a.color, "Unknown"),
      OrElse(a.style, StyleLabel(Casual)),
      OrElse(a.description, "New Item"))
  }

  /** An answer whose category and style, when given, are enum members. */
  predicate WellFormed(a: Analysis)
  {
    && (Truthy(a.category) ==> IsCategoryLabel(a.category.value))
    && (Truthy(a.style) ==> IsStyleLabel(a.style.value))
  }

  /** The defaults are enum members, so a well-formed answer gives a well-typed item. */
  lemma NewItemWellTyped(id: string, dataUrl: string, a: Analysis)
    requires WellFormed(a)
    ensures WellTyped(NewItem(id, dataUrl, a))
  {
    assert CategoryLabel(Other) == "Other";
    assert StyleLabel(Casual) == "Casual";
  }

  /** The answer is not validated: a category outside the enum is stored as is. */
  lemma NewItemKeepsUnknownCategory()
    ensures !WellTyped(NewItem("id", "data:,", Analysis(Some("Dress"), None, None, None)))
  {
    var item := NewItem("id", "data:,", Analysis(Some("Dress"), None, None, None));
    assert item.category == "Dress";
    forall c: ClothingCategory ensures CategoryLabel(c) != "Dress" {
      assert |CategoryLabel(c)| != 5 || CategoryLabel(c) == "Shoes" || CategoryLabel(c) == "Other";
    }
  }

  /** `setItems(prev => [newItem, ...prev])` */
  function AddItem(items: seq<ClothingItem>, item: ClothingItem): (r: seq<ClothingItem>)
    ensures |r| == |items| + 1 && r[0] == item && r[1..] == items
  {
    [item] + items
  }

  /** handleDelete: `prev.filter(item => item.id !== id)` */
  function DeleteItem(items: seq<ClothingItem>, id: string): (r: seq<ClothingItem>)
    ensures id !in ItemIds(r)
    ensures forall k :: 0 <= k < |items| && items[k].id != id ==> items[k] in r
    ensures forall k :: 0 <= k < |r| ==> r[k] in items
    ensures SubsequenceOf(r, items)
    ensures |r| == Count((i: ClothingItem) => i.id != id, items)
  {
    Filter((i: ClothingItem) => i.id != id, items)
  }

  /** Deleting an item just added under a fresh id restores the wardrobe. */
  lemma DeleteAfterAdd(items: seq<ClothingItem>, item: ClothingItem)
    requires item.id !in ItemIds(items)
    ensures DeleteItem(AddItem(items, item), item.id) == items
  {
    var p := (i: ClothingItem) => i.id != item.id;
    FilterConcat(p, [item], items);
    forall k | 0 <= k < |items| ensures p(items[k]) {
      assert items[k] in items;
    }
    FilterKeepsAll(p, items);
  }

  /** filteredItems */
  function View(items: seq<ClothingItem>, f: CategoryFilter): (r: seq<ClothingItem>)
    ensures f.All? ==> r == items
    ensures f.Only? ==> forall k :: 0 <= k < |r| ==> r[k] in items && r[k].category == CategoryLabel(f.category)
    ensures f.Only? ==> forall k :: 0 <= k < |items| && items[k].category == CategoryLabel(f.category) ==> items[k] in r
    ensures f.Only? ==> SubsequenceOf(r, items)
    ensures f.Only? ==> |r| == Count((i: ClothingItem) => i.category == CategoryLabel(f.category), items)
  {
    match f
    case All => items
    case Only(c) => Filter((i: ClothingItem) => i.category == CategoryLabel(c), items)
  }

  /** A newly added item shows at the top of every view that admits it and
      leaves the other views as they were. */
  lemma ViewAfterAdd(items: seq<ClothingItem>, item: ClothingItem, f: CategoryFilter)
    ensures f.All? || item.category == CategoryLabel(f.category) ==>
      View(AddItem(items, item), f) == [item] + View(items, f)
    ensures f.Only? && item.category != CategoryLabel(f.category) ==>
      View(AddItem(items, item), f) == View(items, f)
  {
    match f
    case All =>
    case Only(c) =>
      FilterConcat((i: ClothingItem) => i.category == CategoryLabel(c), [item], items);
  }

  /** `dataUrl.split(',')[1]`; `None` stands for JavaScript's `undefined` when
      the string holds no comma. */
  function Payload(dataUrl: string): (r: Option<string>)
    ensures r.Some? <==> ',' in dataUrl
    ensures r.Some? ==> ',' !in r.value
  {
    var fields := Text.Split(dataUrl, ',');
    if |fields| > 1 then Some(fields[1]) else None
  }

  /** The data of a data URL as section 3 of RFC 2397 defines it: everything
      after the first comma. */
  function DataPart(dataUrl: string): (r: Option<string>)
    ensures r.Some? <==> ',' in dataUrl
  {
    if ',' in dataUrl then Some(dataUrl[Text.IndexOf(dataUrl, ',') + 1..]) else None
  }

  /** A header and a comma-free payload joined by a comma give that payload back. */
  lemma PayloadOfDataUrl(header: string, data: string)
    requires ',' !in header && ',' !in data
    ensures Payload(header + "," + data) == Some(data)
  {
    Text.SplitAfterField(header, ',', data);
    Text.JoinSplit(data, ',');
  }

  /** When the data itself holds a comma, the payload is the data cut at its
      first comma: the second comma field of the whole URL. */
  lemma PayloadIsFirstDataField(header: string, field: string, rest: string)
    requires ',' !in header && ',' !in field
    ensures Payload(header + "," + field + "," + rest) == Some(field)
  {
    Text.SplitAfterField(header, ',', field + "," + rest);
    Text.SplitAfterField(field, ',', rest);
    assert header + "," + field + "," + rest == header + [','] + (field + [','] + rest);
  }

  /** The second comma field is the data of RFC 2397 exactly when the data
      holds no comma, which is always so for base64 data. */
  lemma PayloadIsDataPart(header: string, data: string)
    requires ',' !in header
    ensures Payload(header + "," + data) == DataPart(header + "," + data) <==> ',' !in data
  {
    var u := header + "," + data;
    Text.SplitAfterField(header, ',', data);
    var i := Text.IndexOf(u, ',');
    assert u[..|header|] == header && u[|header|] == ',';
    assert i == |header|;
    assert u[i + 1..] == data;
    var rest := Text.Split(data, ',');
    assert Payload(u) == Some(rest[0]);
    Text.JoinSplit(data, ',');
    if ',' in data {
      assert |rest| > 1;
      assert Text.Join(rest, ",") == rest[0] + "," + Text.Join(rest[1..], ",");
      assert rest[0] != data;
    }
  }

  /** Processing one analysed file: a successful analysis prepends the new item,
      a failed one leaves the wardrobe alone. */
  function ProcessFile(items: seq<ClothingItem>, f: FileResult): (r: seq<ClothingItem>)
    ensures f.analysis.None? ==> r == items
    ensures f.analysis.Some? ==> r == [NewItem(f.newId, f.dataUrl, f.analysis.value)] + items
  {
    match f.analysis
    case None => items
    case Some(a) => AddItem(items, NewItem(f.newId, f.dataUrl, a))
  }

  /** The wardrobe after processing `files` in order. */
  function AfterFiles(items: seq<ClothingItem>, files: seq<FileResult>): seq<ClothingItem>
  {
    if |files| == 0 then items
    else ProcessFile(AfterFiles(items, files[..|files| - 1]), files[|files| - 1])
  }

  /** Files whose analysis succeeded. */
  function Successes(files: seq<FileResult>): nat
  {
    Count((f: FileResult) => f.analysis.Some?, files)
  }

  lemma {:induction false} SuccessesSnoc(files: seq<FileResult>, f: FileResult)
    ensures Successes(files + [f]) == Successes(files) + (if f.analysis.Some? then 1 else 0)
  {
    if |files| == 0 {
      assert files + [f] == [f];
    } else {
      assert (files + [f])[1..] == files[1..] + [f];
      SuccessesSnoc(files[1..], f);
    }
  }

  /** An upload only adds: the previous wardrobe is the tail of the new one,
      which grows by the number of files the classifier answered. */
  lemma {:induction false} UploadOnlyPrepends(items: seq<ClothingItem>, files: seq<FileResult>)
    ensures var r := AfterFiles(items, files);
      |r| == |items| + Successes(files) && r[|r| - |items|..] == items
  {
    if |files| > 0 {
      var init := files[..|files| - 1];
      UploadOnlyPrepends(items, init);
      assert files == init + [files[|files| - 1]];
      SuccessesSnoc(init, files[|files| - 1]);
    }
  }

  /** handleFileUpload: process the files one after another. `written` is the
      series of values the counter is set to: 0 of n before the loop, then
      k of n as file k starts (the first two writes land in the same render).
      The counter never passes the total and ends at the total. No file, no
      counter and no change. */
  method Upload(items: seq<ClothingItem>, files: seq<FileResult>) returns (result: seq<ClothingItem>, written: seq<Progress>)
    ensures result == AfterFiles(items, files)
    ensures |files| == 0 ==> written == []
    ensures |files| > 0 ==> |written| == |files| + 1
    ensures forall k :: 0 <= k < |written| ==> written[k] == Progress(k, |files|)
    ensures forall k :: 0 <= k < |written| ==> written[k].current <= written[k].total
    ensures |files| > 0 ==> written[|written| - 1].current == |files|
  {
    result := items;
    written := [];
    if |files| == 0 {
      return;
    }
    var progress := Progress(0, |files|);
    written := [progress];
    var i := 0;
    while i < |files|
      invariant 0 <= i <= |files|
      invariant result == AfterFiles(items, files[..i])
      invariant |written| == i + 1
      invariant forall k :: 0 <= k < |written| ==> written[k] == Progress(k, |files|)
      invariant progress == written[i]
    {
      progress := progress.(current := i + 1);
      written := written + [progress];
      assert files[..i + 1][..i] == files[..i];
      result := ProcessFile(result, files[i]);
      i := i + 1;
    }
    assert files[..i] == files;
  }

  /** capturePhoto: one picture, counter at 1 of 1. */
  function CapturePhoto(items: seq<ClothingItem>, shot: FileResult): (r: (seq<ClothingItem>, Progress))
    ensures r.1 == Progress(1, 1)
    ensures shot.analysis.None? ==> r.0 == items
    ensures shot.analysis.Some? ==> r.0 == [NewItem(shot.newId, shot.dataUrl, shot.analysis.value)] + items
  {
    (ProcessFile(items, shot), Progress(1, 1))
  }

  /** A captured photo ends up exactly like a one-file upload. */
  lemma CaptureIsOneFileUpload(items: seq<ClothingItem>, shot: FileResult)
    ensures CapturePhoto(items, shot).0 == AfterFiles(items, [shot])
  {
    assert [shot][..0] == [];
  }
}
